=== FILE: README.md ===
# OpenSpecy report builder — a Dafny model

This project models the post-matching report builder of the OpenSpecy Python
interface. An external R package matches every input spectrum against a
spectral library and returns a table with the top `top_n` candidate matches
per file. The Python side then:

- sorts that table by file name, which becomes the **Info** sheet;
- cuts it at a fixed stride of `top_n` rows into one block per file;
- sorts each block best match first (`match_val` descending);
- classifies each block: the best row with a single-space note if the best
  match is not flagged "not plastic"; otherwise the first "plastic" row with
  an ordinal note ("second match" … "fifth match"); otherwise the best row
  noted "all top matches empty wells" or "all top matches nonpolymer";
- builds the **Summary** (first row of each block), **Updated Summary** (the
  classification of each block) and **Subsequent Matches** (every row, the
  file name replaced by "-" on all rows but the first of each block) sheets;
- computes the **Notes** statistics: how many "not plastic" best matches are
  empty wells, and how many blocks are empty wells throughout.

It also models `reformat_path`, which doubles every backslash of a path
before it is handed to R.

Rows are a `Row` datatype with the six columns the report keeps
(`file_name.y`, `spectrum_identity`, `material_class`, `match_val`, `sn`,
`plastic_or_not`); tables are `seq<Row>`. The floating-point `match_val` and
`sn` are integers: only their order matters. Sorting is specified as "a
permutation that is ordered by the key"; the table library's default sort is
not stable, so no order among equal keys is promised. The per-sheet lemmas in
`ReportLayout` take any such ordering as a hypothesis, and `Export.SortExport`
returns, as a ghost output, the ordering it used.

Modules and files:

| file | module | contents |
|---|---|---|
| wrappers.dfy | Wrappers | `Option`, `Result` |
| rows.dfy | Rows | `Row`, `UpdatedRow`, the column values and note strings |
| paths.dfy | Paths | `reformat_path` and its inverse |
| sorting.dfy | Sorting | sort specification, insertion sort, the two row orders |
| partition.dfy | Partition | the stride partition and `Flatten` |
| classify.dfy | Classification | `identical_list_items`, `plastic_matches_checked`, `nonpolymer_matches_checked`, `subsequent_matches_checked` |
| report.dfy | ReportSheets | the three sheets, and the two loops of `sort_export` |
| layout.dfy | ReportLayout | lengths, positions and contents of the sheets |
| export.dfy | Export | `sort_export` as a whole |
| notes.dfy | Notes | `empty_wells_count` and the statistics of `notes_sheet` |
| legacy.dfy | Legacy | the legacy classifier's column lookup, as written |

The repository holds two copies of the helpers and of `sort_export`:
`openspi/utils.py` with `openspecy/openspecy_user.py`, and the older
`openspecy_rscript_processing.py`. Their logic is the same, apart from:

- the legacy classifier reads its two columns through `df[df.columns[...]]`
  (openspecy_rscript_processing.py:327 and :343), which raises (see
  "## Findings");
- the legacy `notes_sheet` ends by calling `timestamp('0.9.3', …)`
  (openspecy_rscript_processing.py:546), while openspi/utils.py:337 calls
  `_xlsx_metadata` there;
- the legacy `save_df_to_excel` (openspecy_rscript_processing.py:361-387) makes
  no `_xlsx_metadata` call, while openspi/utils.py:204 does;
- every import of the legacy file is commented out
  (openspecy_rscript_processing.py:1-13), so, loaded as a module, its uses of
  `os`, `pd` and `xl` raise `NameError`. Its `sort_export` would stop at
  `save_df_to_excel` (`os.path.exists`) before the classifier is reached.

`openspi/utils.py` never defines `_xlsx_metadata`: its import (line 5) is a
comment. As written, the call at openspi/utils.py:204 raises `NameError` right
after `save_df_to_excel` writes its sheet, so `sort_export` would stop after
writing the Info sheet (openspecy/openspecy_user.py:224). The call at
openspi/utils.py:337 raises at the end of `notes_sheet`. The model assumes the
metadata step exists and leaves the sheet contents unchanged (see
"## Left out"). Under that assumption, only the first difference above changes
the sheet contents.
`openspecy/openspecy_user.py` imports the helpers from a module
`openspecy_utils` that is not part of this model; `openspi/utils.py` is taken
as that module. Each row below cites one of the two copies. The matching
lines of the other copy are:

| utils / user copy | legacy copy |
|---|---|
| openspi/utils.py:25 | openspecy_rscript_processing.py:121 |
| openspi/utils.py:44 | openspecy_rscript_processing.py:231 |
| openspi/utils.py:68-80 | openspecy_rscript_processing.py:255-267 |
| openspi/utils.py:103-112 | openspecy_rscript_processing.py:290-299 |
| openspi/utils.py:140-171 | openspecy_rscript_processing.py:327-358 |
| openspi/utils.py:258-263 | openspecy_rscript_processing.py:442-447 |
| openspi/utils.py:291-331 | openspecy_rscript_processing.py:512-540 |
| openspecy/openspecy_user.py:223-282 | openspecy_rscript_processing.py:570-618 |

Behaviour of the code that is easy to misread, and that the model follows:

- When the best match is not "not plastic", the note is a single space `" "`,
  not an empty string. The test is "is not `not plastic`", so a flag with any
  other value also takes this branch.
- The table length is not checked against `top_n`. A final block shorter than
  `top_n` is processed like the others.
- The block sort is not stable, so no tie order is modelled.
- A stride of 0 makes `range` raise; this is `Failure(ZeroStride)`. A
  negative stride gives an empty range, so all three sheets are empty. The
  source writes the Info sheet before the loop raises; the model returns only
  the error.
- A block whose first "plastic" row is at position 5 or later gets no note
  (this needs `top_n` of at least 6). If no Updated Summary row has a note,
  every row has six items while seven column names are passed, and building
  the Updated Summary table (openspi/utils.py:362) raises. The model returns
  `Failure(UpdatedWidthMismatch)`; the source has already written the Info
  and Summary sheets by then. When only some rows lack the note, the table
  library fills the missing cell with an empty value, which is the model's
  `None`.
- The Notes text keeps the literal "5/5" whatever `top_n` is.
- With no "not plastic" Summary row, `notes_sheet` writes no statistics
  (`NoNonplasticMatches`).

## Model

| member | source | states |
|---|---|---|
| Paths.ReformatPath | openspi/utils.py:25 | The output is longer than the input by exactly the number of backslashes, and a path without a backslash comes back unchanged. |
| Paths.CollapseReformat | openspecy_rscript_processing.py:121 | Collapsing every doubled backslash of the output gives back the original path, so no two paths are reformatted alike. |
| Paths.ReformatCollapse | openspi/utils.py:25 | Conversely, a string that collapses to a path is exactly that path reformatted: the output is the only well-formed doubling of the input. |
| Paths.ReformatPathAppend | openspi/utils.py:25 | Reformatting works character by character: it distributes over concatenation, so characters keep their order. |
| Paths.ReformatPathChar | openspi/utils.py:25 | A single backslash becomes two backslashes, and any other character stays as it is. |
| Classification.IdenticalListItems | openspi/utils.py:44 | `len(set(lst)) == 1` holds exactly when the list is non-empty and all its items are equal. The empty list gives false. |
| Classification.PlasticMatchesChecked | openspi/utils.py:68-80 | The row is unchanged. A note is added exactly for positions 1 to 4, the note reads back as that position, and it differs from every other note. |
| Classification.NonpolymerMatchesChecked | openspi/utils.py:103-112 | Exactly one note is added: "all top matches empty wells" when the identities are non-empty and all "empty well", otherwise "all top matches nonpolymer". |
| Classification.IndexOf | openspi/utils.py:148 | `list.index` returns the position of the first occurrence. |
| Classification.Classify | openspi/utils.py:140-166 | If the best row is not "not plastic", the result is that row with `" "`. Otherwise, if a "plastic" row exists, the result is the first one, at a position of at least 1, with the ordinal of that position (no note past the fifth). Otherwise it is the best row with the empty-wells or nonpolymer note. |
| Classification.SubsequentMatchesChecked | openspi/utils.py:168-171 | The list grows by exactly one row, the classification of the block, whose row is a row of the block. Its earlier rows stay as they were. |
| Classification.ClassifyPicksFromBlock | openspi/utils.py:143-166 | In every branch, the chosen row is one of the block's rows. |
| Classification.ClassifyEmptyWellsIff | openspi/utils.py:143-161 | A block gets "all top matches empty wells" exactly when its best row is "not plastic", no row is "plastic", and every identity is "empty well". |
| Sorting.SortByMatchVal | openspecy/openspecy_user.py:251 | The sorted block is a permutation of the block with `match_val` non-increasing. |
| Sorting.SortByFileName | openspecy/openspecy_user.py:223 | The Info sheet is a permutation of the table with file names in ascending (code point) order. |
| Sorting.HeadIsLeast | openspecy/openspecy_user.py:266-268 | The first row of any best-first ordering is a row of the block, and no row of the block ranks above it. |
| Partition.ChunksFrom | openspecy/openspecy_user.py:246-248 | Every block is non-empty and at most `top_n` long, and all blocks but the last have exactly `top_n` rows. Block count `m` satisfies `(m - 1) * top_n < n <= m * top_n`. |
| Partition.FlattenChunks | openspecy/openspecy_user.py:246-248 | Concatenating the blocks gives back the table: every row is covered exactly once, in order. |
| Partition.ChunkCount | openspecy_rscript_processing.py:585-587 | There are `ceil(n / top_n)` blocks. |
| ReportSheets.EmitBlock | openspecy/openspecy_user.py:260-268 | The inner loop emits every row of the block. The first row keeps its file name and is also appended to Summary. Every later row gets "-" as file name and its other columns unchanged. |
| ReportSheets.SheetsOfAppend | openspecy_rscript_processing.py:593-605 | Each further block appends one Summary row, one Updated Summary row and its own Subsequent Matches rows. Earlier rows are untouched. |
| ReportSheets.BuildSheets | openspecy/openspecy_user.py:246-268 | The stride loop yields the sheets of a best-first ordering of the stride blocks, block by block in order. Summary and Updated Summary each get one row per block. |
| ReportLayout.SheetCounts | openspecy/openspecy_user.py:246-268 | Subsequent Matches has as many rows as the table. Summary and Updated Summary each have `ceil(n / top_n)` rows. |
| ReportLayout.SubsequentLayout | openspecy/openspecy_user.py:260-265 | Row `j` of sorted block `k` is at position `k * top_n + j`. The first row is untouched; every later row has file name "-" and its other columns unchanged. |
| ReportLayout.SummaryIsBlockBest | openspecy/openspecy_user.py:266-268 | Summary row `k` equals the first Subsequent Matches row of block `k`. It is a row of block `k`, and no row of that block scores higher. |
| ReportLayout.UpdatedIsClassification | openspecy/openspecy_user.py:254-256 | Updated Summary has one row per block, in block order. Row `k` is the classification of sorted block `k` and is a row of that block. |
| ReportLayout.SmallStrideNotesEveryRow | openspi/utils.py:68-80 | With a stride of at most 5, every block has at most 5 rows, so every Updated Summary row carries a note and the seven-column table can be built. |
| ReportLayout.WideStrideCanLeaveNoNote | openspi/utils.py:362 | With a stride of 6, a block of five "not plastic" rows followed by a "plastic" one is classified with no note. A run over that block has no note in any Updated Summary row, so the width-mismatch failure is reachable. |
| Export.SortExport | openspecy/openspecy_user.py:202-282 | A zero stride fails. Otherwise Info is the table ordered by file name, and the sheets are those of a best-first ordering of Info's stride blocks. The run fails with a width mismatch exactly when the stride is positive and no Updated Summary row has a note, which never happens for strides 1 to 5. On success, the sheet lengths follow the relations above, and the Updated Summary columns are the six kept columns plus `matches_checked`. |
| Notes.EmptyWellsCount | openspi/utils.py:258-263 | The count is at most the number of rows. It is 0 exactly when no identity is "empty well", and it equals the number of rows exactly when all identities are. |
| Notes.NotPlasticRows | openspi/utils.py:292 | The filter keeps exactly the rows flagged "not plastic" and no others. |
| Notes.NotPlasticRowsMultiplicity | openspi/utils.py:292 | Each "not plastic" row is kept as often as it occurs and every other row is dropped, so the filter's length is the `len(df_not_plastic)` of the A3 sentence (openspi/utils.py:316), repeated rows included. |
| Notes.NotPlasticRowsAppend | openspi/utils.py:292 | Filtering two concatenated sheets filters each one and keeps their order. |
| Notes.NoteCount | openspi/utils.py:307-310 | The number of rows carrying a note is at most the number of rows. |
| Notes.NoteCountNoneOrAll | openspi/utils.py:307-310 | The count is 0 exactly when no row carries the note, and it equals the number of rows exactly when every row does. |
| Notes.NoteCountAppend | openspi/utils.py:307-310 | Counting a note over two concatenated sheets adds the two counts, so together with the none and all cases the count is the number of matching rows. |
| Notes.NatToString | openspi/utils.py:313-318 | `str` of a count gives decimal digits without leading zeros, and those digits denote the count. |
| Notes.NotesSheet | openspi/utils.py:291-331 | No statistics are written exactly when no Summary row is "not plastic". Otherwise the three numbers are the size of the "not plastic" filter, its empty-well count and the number of all-empty-wells notes, so 0 < not-plastic count <= number of Summary rows, and the empty-well count is at most the not-plastic count. A3 reads "<empty wells> out of <not plastic> nonplastic matches are empty wells." and A4 reads "<all empty> out of <empty wells> empty well matches have 5/5 top hits for empty wells.", each number being the decimal text of `NatToString`. |
| Notes.NoteCountBounded | openspecy_rscript_processing.py:520-529 | If each all-empty-wells row lines up with a "not plastic" empty-well Summary row, then there are at most as many all-empty-wells rows as empty wells among the "not plastic" rows. |
| Notes.NotesBoundsForOneRun | openspi/utils.py:299-331 | For the sheets of one run, the all-empty-wells blocks are no more than the empty-well best matches among the "not plastic" ones. With the bounds of `NotesSheet`, the A4 numerator is at most its denominator, which is at most the A3 denominator. |
| Legacy.LegacyClassifierAlwaysRaises | openspecy_rscript_processing.py:327 | As written, the legacy classifier raises on every block. The intended classifier appends exactly one row. |

## Left out

- `process_csv_files` (both copies): directory listing, CSV rewriting, archiving and `sys.exit`. Its row filter relies on Python's `float` parsing. The legacy copy's `for x in len(rows)` would raise, and the `except` swallows that error.
- `r_script`: a call into the OpenSpecy R package through rpy2. The matching it performs is not visible here. Its result is the model's input table.
- `save_df_to_excel`, `check_excel_sheet`, `list_to_df_to_sheet`, and the workbook loading and saving in `notes_sheet`: spreadsheet I/O. The model keeps the sheet contents, the note strings, and the one way building the Updated Summary table can fail (`UpdatedWidthMismatch`); writing the sheets, and the sheets already written when a later step fails, are not modelled.
- `_xlsx_metadata`: as written, each call (openspi/utils.py:204 and :337) raises `NameError`, because the function is never defined or imported. The model assumes the function exists and leaves the sheet contents unchanged. The legacy file's commented-out imports (openspecy_rscript_processing.py:1-13) are assumed present in the same way.
- `timestamp` (legacy copy): it reads the wall clock. It also writes cell A1 although its comment says A4, which is a cell-layout concern.
- The Info sheet keeps all columns of the matcher's table. The model keeps only the six columns the other sheets use.
- Reading the Summary and Updated Summary sheets back from the workbook in `notes_sheet`: the model passes the in-memory sheets, so it assumes the workbook round trip preserves their values.
- `openspecy_main`, `docs/conf.py`, `setup.py`: glue, documentation configuration and packaging.
- Floating-point `match_val` and `sn`: modelled as integers. Missing values (NaN) and their sort placement are not modelled.
- Export.SortExport: on a failure it returns only the error. The sheets the source has already written by then (Info for `ZeroStride`; Info and Summary for `UpdatedWidthMismatch`) are not part of the result.
- Classification.Classify: requires a non-empty block. On an empty block the source raises `IndexError` at `polymer[0]`, and `sort_export` never passes one.

## Findings

| source | as written | input that shows it | evidently intended | confidence | as-written member | corrected member |
|---|---|---|---|---|---|---|
| openspecy_rscript_processing.py:327 | `df[df.columns['plastic_or_not']]` indexes the column index with a label (line 343 does the same for `spectrum_identity`) | any non-empty block | `df['plastic_or_not']`, as in openspi/utils.py:140 | not executed; the as-written half rests on the modelled lookup `Legacy.ColumnAt`, which encodes the table library's behaviour that a column index accepts positions, not labels | Legacy.LegacyClassifierAlwaysRaises | Classification.Classify |

=== FILE: classify.dfy ===
/**
 Per-file match classification: from one file's block of candidate matches,
 sorted best first, choose the row for the Updated Summary sheet and the note
 explaining the choice.
 */
module Classification {
  import opened Wrappers
  import opened Rows

  lemma TwoMembers<T>(s: set<T>, a: T, b: T)
    requires a in s && b in s && a != b
    ensures |s| >= 2
  {
    var rest := s - {a};
    assert b in rest;
    assert |rest| == |s| - 1;
  }

  /** A list has one distinct item exactly when it is non-empty and uniform. */
  lemma SingleDistinctItem(items: seq<string>)
    ensures |(set x | x in items)| == 1
      <==> |items| > 0 && forall i :: 0 <= i < |items| ==> items[i] == items[0]
  {
    var distinct := set x | x in items;
    if |items| > 0 && forall i :: 0 <= i < |items| ==> items[i] == items[0] {
      assert distinct == {items[0]};
    }
    if |distinct| == 1 && |items| > 0 {
      forall i | 0 <= i < |items| ensures items[i] == items[0] {
        if items[i] != items[0] {
          TwoMembers(distinct, items[0], items[i]);
          assert false;
        }
      }
    }
  }

  /** `len(set(lst)) == 1`: true exactly when the list is non-empty and all of
      its items are equal (the empty list has an empty set, so it gives false). */
  function IdenticalListItems(items: seq<string>): (r: bool)
    ensures r <==> |items| > 0 && forall i :: 0 <= i < |items| ==> items[i] == items[0]
  {
    SingleDistinctItem(items);
    |(set x | x in items)| == 1
  }

  /** Reads an ordinal note back as the block index it was written for. */
  function OrdinalIndex(note: string): Option<int> {
    if note == "second match" then Some(1)
    else if note == "third match" then Some(2)
    else if note == "fourth match" then Some(3)
    else if note == "fifth match" then Some(4)
    else None
  }

  /** The row at block position `index`, with the ordinal of that position
      appended for positions 1 to 4; any other position appends nothing. */
  function PlasticMatchesChecked(row: Row, index: int): (r: UpdatedRow)
    ensures r.row == row
    ensures r.note.Some? <==> 1 <= index <= 4
    ensures r.note.Some? ==> OrdinalIndex(r.note.value) == Some(index)
    ensures r.note.Some? ==> r.note.value !in {BlankNote, AllEmptyWellsNote, AllNonpolymerNote}
  {
    if index == 1 then UpdatedRow(row, Some("second match"))
    else if index == 2 then UpdatedRow(row, Some("third match"))
    else if index == 3 then UpdatedRow(row, Some("fourth match"))
    else if index == 4 then UpdatedRow(row, Some("fifth match"))
    else UpdatedRow(row, None)
  }

  /** The row with "all top matches empty wells" appended when every identity
      in the list is "empty well", and "all top matches nonpolymer" otherwise. */
  function NonpolymerMatchesChecked(row: Row, material: seq<string>): (r: UpdatedRow)
    ensures r.row == row
    ensures r.note == Some(AllEmptyWellsNote) || r.note == Some(AllNonpolymerNote)
    ensures r.note == Some(AllEmptyWellsNote)
      <==> |material| > 0 && forall i :: 0 <= i < |material| ==> material[i] == EmptyWell
  {
    if EmptyWell in material then
      if IdenticalListItems(material) then UpdatedRow(row, Some(AllEmptyWellsNote))
      else UpdatedRow(row, Some(AllNonpolymerNote))
    else
      assert |material| > 0 ==> material[0] in material;
      UpdatedRow(row, Some(AllNonpolymerNote))
  }

  /** `list.index(v)`: the position of the first occurrence of `v`. */
  function IndexOf(items: seq<string>, v: string): (i: nat)
    requires v in items
    ensures i < |items| && items[i] == v
    ensures forall j :: 0 <= j < i ==> items[j] != v
  {
    if items[0] == v then 0
    else
      assert v in items[1..] by {
        var k :| 0 <= k < |items| && items[k] == v;
        assert items[1..][k - 1] == v;
      }
      1 + IndexOf(items[1..], v)
  }

  /** No row of the block is flagged "plastic". */
  predicate NoPlastic(block: seq<Row>) {
    forall i :: 0 <= i < |block| ==> block[i].plasticOrNot != Plastic
  }

  /** Position `i` holds the first row of the block flagged "plastic". */
  predicate FirstPlasticAt(block: seq<Row>, i: int) {
    && 0 <= i < |block|
    && block[i].plasticOrNot == Plastic
    && forall j :: 0 <= j < i ==> block[j].plasticOrNot != Plastic
  }

  /** The Updated Summary row for one block sorted best first:
      - a best match not flagged "not plastic" is kept, with a single-space note;
      - otherwise the first "plastic" row is chosen, with its ordinal as note;
      - otherwise the best match is kept, noted as all empty wells or all nonpolymer. */
  function Classify(block: seq<Row>): (r: UpdatedRow)
    requires |block| > 0
    ensures block[0].plasticOrNot != NotPlastic ==> r == UpdatedRow(block[0], Some(BlankNote))
    ensures forall i {:trigger FirstPlasticAt(block, i)} :: block[0].plasticOrNot == NotPlastic && FirstPlasticAt(block, i) ==>
              1 <= i && r.row == block[i] && (r.note.Some? <==> i <= 4)
              && (r.note.Some? ==> OrdinalIndex(r.note.value) == Some(i))
    ensures block[0].plasticOrNot == NotPlastic && NoPlastic(block) ==>
              && r.row == block[0]
              && (r.note == Some(AllEmptyWellsNote) || r.note == Some(AllNonpolymerNote))
              && (r.note == Some(AllEmptyWellsNote)
                  <==> forall i :: 0 <= i < |block| ==> block[i].identity == EmptyWell)
  {
    var polymer := PlasticColumn(block);
    if polymer[0] == NotPlastic then
      if Plastic in polymer then
        var index := IndexOf(polymer, Plastic);
        PlasticMatchesChecked(block[index], index)
      else
        NonpolymerMatchesChecked(block[0], IdentityColumn(block))
    else
      UpdatedRow(block[0], Some(BlankNote))
  }

  /** `subsequent_matches_checked`: appends the block's Updated Summary row to
      the rows gathered so far and leaves those rows untouched. */
  function SubsequentMatchesChecked(block: seq<Row>, nested: seq<UpdatedRow>): (r: seq<UpdatedRow>)
    requires |block| > 0
    ensures |r| == |nested| + 1
    ensures r[..|nested|] == nested
    ensures r[|nested|] == Classify(block) && r[|nested|].row in block
  {
    ClassifyPicksFromBlock(block);
    nested + [Classify(block)]
  }

  /** The chosen row is always one of the block's rows. */
  lemma ClassifyPicksFromBlock(block: seq<Row>)
    requires |block| > 0
    ensures Classify(block).row in block
  {
    var polymer := PlasticColumn(block);
    if polymer[0] == NotPlastic && Plastic in polymer {
      var index := IndexOf(polymer, Plastic);
      assert FirstPlasticAt(block, index);
    }
  }

  /** The "all top matches empty wells" note is given exactly to blocks whose
      best match is "not plastic", that hold no "plastic" row, and whose
      identities are all "empty well". */
  lemma ClassifyEmptyWellsIff(block: seq<Row>)
    requires |block| > 0
    ensures Classify(block).note == Some(AllEmptyWellsNote) <==>
              && block[0].plasticOrNot == NotPlastic
              && NoPlastic(block)
              && forall i :: 0 <= i < |block| ==> block[i].identity == EmptyWell
  {
    var polymer := PlasticColumn(block);
    if polymer[0] == NotPlastic && Plastic in polymer {
      var index := IndexOf(polymer, Plastic);
      assert FirstPlasticAt(block, index);
    }
  }
}

=== FILE: export.dfy ===
/**
 The whole of `sort_export` apart from writing the workbook: the Info sheet,
 the stride partition, and the three derived sheets.
 */
module Export {
  import opened Wrappers
  import opened Rows
  import opened Sorting
  import opened Partition
  import opened ReportSheets
  import opened ReportLayout

  /** `sort_export` on the match table with stride `topN`. The Info sheet
      `info` is the table ordered by file name; the other sheets are built from
      a best-first ordering `sorted` of the Info sheet's stride blocks. Building
      the Updated Summary table fails when none of its rows carries a note. */
  method SortExport(table: seq<Row>, topN: int)
    returns (res: Result<Report, ReportError>, ghost info: seq<Row>, ghost sorted: seq<seq<Row>>)
    ensures IsSortOf(FileNameLe, info, table)
    ensures topN > 0 ==> BestFirst(Chunks(info, topN), sorted) && AllNonEmpty(sorted)
    ensures res == Failure(ZeroStride) <==> topN == 0
    ensures res == Failure(UpdatedWidthMismatch)
            <==> topN > 0 && AllNonEmpty(sorted) && NoNoteInAnyRow(SheetsOf(sorted).updated)
    ensures 0 < topN <= 5 ==> res.Success?
    ensures res.Success? ==> res.value.info == info && IsSortOf(FileNameLe, res.value.info, table)
    ensures res.Success? ==> res.value.columns == TruncatedColumns
    ensures res.Success? ==> res.value.updatedColumns == res.value.columns + [MatchesCheckedColumn]
    ensures res.Success? && topN < 0 ==> res.value.sheets == Sheets([], [], [])
    ensures res.Success? && topN > 0 ==> res.value.sheets == SheetsOf(sorted)
    ensures res.Success? && topN > 0 ==>
              && |res.value.sheets.subsequent| == |table|
              && |res.value.sheets.summary| == (|table| + topN - 1) / topN
              && |res.value.sheets.updated| == (|table| + topN - 1) / topN
  {
    sorted := [];
    var byName := SortByFileName(table);
    info := byName;
    if topN == 0 {
      return Failure(ZeroStride), info, sorted;
    }
    var sheets := Sheets([], [], []);
    if topN > 0 {
      sheets, sorted := BuildSheets(byName, topN);
      SheetCounts(table, topN, byName, sorted);
      if topN <= 5 {
        SmallStrideNotesEveryRow(byName, topN, sorted);
      }
      if NoNoteInAnyRow(sheets.updated) {
        return Failure(UpdatedWidthMismatch), info, sorted;
      }
    }
    res := Success(Report(byName, TruncatedColumns, TruncatedColumns + [MatchesCheckedColumn], sheets));
  }
}

=== FILE: layout.dfy ===
/**
 What the report promises about its sheets, for every run: the lemmas hold for
 any ordering by file name and any best-first ordering of each block, so they
 do not depend on how the sort breaks ties.
 */
module ReportLayout {
  import opened Wrappers
  import opened Rows
  import opened Sorting
  import opened Partition
  import opened Classification
  import opened ReportSheets

  /** A sorted block has the size of its block, so no sorted block is empty. */
  lemma SortedBlockSizes(info: seq<Row>, n: nat, sorted: seq<seq<Row>>)
    requires n > 0 && BestFirst(Chunks(info, n), sorted)
    ensures AllNonEmpty(sorted)
    ensures forall k :: 0 <= k < |sorted| ==> |sorted[k]| == |Chunks(info, n)[k]|
  {
    forall k | 0 <= k < |sorted| ensures |sorted[k]| == |Chunks(info, n)[k]| {
      assert |multiset(sorted[k])| == |multiset(Chunks(info, n)[k])|;
    }
  }

  /** Subsequent Matches has one row per input row; Summary and Updated
      Summary have one row per block, and there are `ceil(|table| / n)` blocks. */
  lemma {:induction false} SheetCounts(table: seq<Row>, n: nat, info: seq<Row>, sorted: seq<seq<Row>>)
    requires n > 0 && multiset(info) == multiset(table)
    requires BestFirst(Chunks(info, n), sorted)
    ensures AllNonEmpty(sorted)
    ensures |SheetsOf(sorted).subsequent| == |table|
    ensures |SheetsOf(sorted).summary| == (|table| + n - 1) / n
    ensures |SheetsOf(sorted).updated| == (|table| + n - 1) / n
  {
    SortedBlockSizes(info, n, sorted);
    var chunks := Chunks(info, n);
    FlattenLengths(Blanked(sorted), chunks);
    FlattenChunks(info, n);
    assert |multiset(info)| == |multiset(table)|;
    ChunkCount(info, n);
  }

  /** Row `j` of sorted block `k` appears at position `k * n + j` of
      `subsequent`, its file name replaced by "-" unless it is the first row. */
  ghost predicate PlacedAt(subsequent: seq<Row>, sorted: seq<seq<Row>>, n: nat, k: int, j: int) {
    0 <= k < |sorted| && 0 <= j < |sorted[k]| ==>
      && k * n + j < |subsequent|
      && subsequent[k * n + j] == if j == 0 then sorted[k][j] else sorted[k][j].(fileName := Dash)
  }

  /** Positions of the Subsequent Matches rows when every block but the last
      holds `n` rows. */
  lemma {:induction false} BlankedLayout(sorted: seq<seq<Row>>, n: nat, k: nat, j: nat)
    requires AllNonEmpty(sorted)
    requires forall i :: 0 <= i < |sorted| - 1 ==> |sorted[i]| == n
    requires k < |sorted| && j < |sorted[k]|
    ensures k * n + j < |SheetsOf(sorted).subsequent|
    ensures SheetsOf(sorted).subsequent[k * n + j]
            == if j == 0 then sorted[k][j] else sorted[k][j].(fileName := Dash)
  {
    var bl := Blanked(sorted);
    assert forall i :: 0 <= i < k ==> |bl[i]| == n;
    FlattenPrefixLength(bl, n, k);
    FlattenIndex(bl, k, j);
  }

  /** Block `k` of Subsequent Matches occupies positions `k * n` to
      `k * n + |block| - 1`: its first row is the block's best row untouched,
      every later row is the sorted row with "-" as file name and all other
      columns unchanged. */
  lemma {:induction false} SubsequentLayout(info: seq<Row>, n: nat, sorted: seq<seq<Row>>)
    requires n > 0 && BestFirst(Chunks(info, n), sorted)
    ensures AllNonEmpty(sorted)
    ensures forall k, j :: PlacedAt(SheetsOf(sorted).subsequent, sorted, n, k, j)
  {
    SortedBlockSizes(info, n, sorted);
    forall k, j ensures PlacedAt(SheetsOf(sorted).subsequent, sorted, n, k, j) {
      if 0 <= k < |sorted| && 0 <= j < |sorted[k]| {
        BlankedLayout(sorted, n, k, j);
      }
    }
  }

  /** Summary row `k` is the first row of block `k` in Subsequent Matches, it
      comes from block `k`, and no row of the block scores higher. */
  lemma {:induction false} SummaryIsBlockBest(info: seq<Row>, n: nat, sorted: seq<seq<Row>>)
    requires n > 0 && BestFirst(Chunks(info, n), sorted)
    ensures AllNonEmpty(sorted)
    ensures forall k :: 0 <= k < |sorted| ==>
              && k * n < |SheetsOf(sorted).subsequent|
              && SheetsOf(sorted).summary[k] == SheetsOf(sorted).subsequent[k * n]
              && SheetsOf(sorted).summary[k] in Chunks(info, n)[k]
              && forall y :: y in Chunks(info, n)[k] ==> SheetsOf(sorted).summary[k].matchVal >= y.matchVal
  {
    SortedBlockSizes(info, n, sorted);
    SubsequentLayout(info, n, sorted);
    forall k | 0 <= k < |sorted|
      ensures SheetsOf(sorted).summary[k] in Chunks(info, n)[k]
      ensures forall y :: y in Chunks(info, n)[k] ==> SheetsOf(sorted).summary[k].matchVal >= y.matchVal
    {
      HeadIsLeast(MatchValGe, sorted[k], Chunks(info, n)[k]);
    }
    forall k | 0 <= k < |sorted|
      ensures k * n < |SheetsOf(sorted).subsequent|
      ensures SheetsOf(sorted).summary[k] == SheetsOf(sorted).subsequent[k * n]
    {
      assert PlacedAt(SheetsOf(sorted).subsequent, sorted, n, k, 0);
    }
  }

  /** Updated Summary row `k` is the classification of sorted block `k`, in
      block order. */
  lemma UpdatedIsClassification(info: seq<Row>, n: nat, sorted: seq<seq<Row>>)
    requires n > 0 && BestFirst(Chunks(info, n), sorted)
    ensures AllNonEmpty(sorted)
    ensures |SheetsOf(sorted).updated| == |sorted|
    ensures forall k :: 0 <= k < |sorted| ==>
              SheetsOf(sorted).updated[k] == Classify(sorted[k])
              && SheetsOf(sorted).updated[k].row in Chunks(info, n)[k]
  {
    SortedBlockSizes(info, n, sorted);
    forall k | 0 <= k < |sorted| ensures Classify(sorted[k]).row in Chunks(info, n)[k] {
      ClassifyPicksFromBlock(sorted[k]);
      assert Classify(sorted[k]).row in multiset(sorted[k]);
    }
  }

  /** With a stride of at most five, every block has at most five rows, so
      the first "plastic" row sits at position 4 or earlier and always gets its
      ordinal: every Updated Summary row carries a note. */
  lemma SmallStrideNotesEveryRow(info: seq<Row>, n: nat, sorted: seq<seq<Row>>)
    requires 0 < n <= 5 && BestFirst(Chunks(info, n), sorted)
    ensures AllNonEmpty(sorted)
    ensures forall k :: 0 <= k < |SheetsOf(sorted).updated| ==> SheetsOf(sorted).updated[k].note.Some?
    ensures !NoNoteInAnyRow(SheetsOf(sorted).updated)
  {
    SortedBlockSizes(info, n, sorted);
    forall k | 0 <= k < |sorted| ensures Classify(sorted[k]).note.Some? {
      var block := sorted[k];
      assert |block| <= 5;
      if block[0].plasticOrNot == NotPlastic && !NoPlastic(block) {
        var i :| 0 <= i < |block| && block[i].plasticOrNot == Plastic;
        var polymer := PlasticColumn(block);
        assert polymer[i] == Plastic;
        assert FirstPlasticAt(block, IndexOf(polymer, Plastic));
      }
    }
    if |sorted| > 0 {
      assert SheetsOf(sorted).updated[0].note.Some?;
    }
  }

  /** With a stride of six the failure is reachable: a block whose five best
      matches are "not plastic" and whose sixth is "plastic" gets no note, so
      a run over that one block has no note in any Updated Summary row. */
  lemma WideStrideCanLeaveNoNote(np: Row, p: Row)
    requires np.plasticOrNot == NotPlastic && p.plasticOrNot == Plastic
    ensures AllNonEmpty([[np, np, np, np, np, p]])
    ensures Classify([np, np, np, np, np, p]) == UpdatedRow(p, None)
    ensures NoNoteInAnyRow(SheetsOf([[np, np, np, np, np, p]]).updated)
  {
    var block := [np, np, np, np, np, p];
    assert FirstPlasticAt(block, 5);
  }
}

=== FILE: legacy.dfy ===
/**
 The legacy copy of the classifier reads its two columns through
 `df[df.columns[label]]`. The column index of a table accepts integer
 positions, not labels, so the lookup raises before any row is classified.
 This module models that lookup as written; the rest of the model uses the
 intended lookup `df[label]`, which `Classification` implements.
 */
module Legacy {
  import opened Wrappers
  import opened Rows
  import opened Classification

  /** A key given to a column index: an integer position or a column label. */
  datatype IndexKey = Position(i: int) | Label(name: string)

  /** The error raised when a label is used where a position is required. */
  datatype LegacyError = NotAPosition(key: string) | PositionOutOfRange(i: int)

  /** `columns[key]` on a column index: positions count from the front (or,
      when negative, from the back); a label is rejected. */
  function ColumnAt(columns: seq<string>, key: IndexKey): (r: Result<string, LegacyError>)
    ensures key.Label? ==> r == Failure(NotAPosition(key.name))
    ensures key.Position? && 0 <= key.i < |columns| ==> r == Success(columns[key.i])
  {
    match key
    case Label(name) => Failure(NotAPosition(name))
    case Position(i) =>
      if 0 <= i < |columns| then Success(columns[i])
      else if -|columns| <= i < 0 then Success(columns[|columns| + i])
      else Failure(PositionOutOfRange(i))
  }

  /** The legacy `subsequent_matches_checked`, as written: the flag column is
      looked up by `df.columns["plastic_or_not"]` first. */
  function LegacySubsequentMatchesChecked(block: seq<Row>, nested: seq<UpdatedRow>): (r: Result<seq<UpdatedRow>, LegacyError>)
    requires |block| > 0
  {
    match ColumnAt(TruncatedColumns, Label("plastic_or_not"))
    case Failure(e) => Failure(e)
    case Success(_) => Success(SubsequentMatchesChecked(block, nested))
  }

  /** The legacy classifier never classifies: for every block it raises,
      where the intended classifier appends exactly one row. */
  lemma LegacyClassifierAlwaysRaises(block: seq<Row>, nested: seq<UpdatedRow>)
    requires |block| > 0
    ensures LegacySubsequentMatchesChecked(block, nested) == Failure(NotAPosition("plastic_or_not"))
    ensures |SubsequentMatchesChecked(block, nested)| == |nested| + 1
  {
  }
}

=== FILE: notes.dfy ===
/**
 The Notes sheet statistics: among the Summary rows whose best match is
 "not plastic", how many are empty wells, and how many Updated Summary rows say
 that all top matches were empty wells.
 */
module Notes {
  import opened Wrappers
  import opened Rows
  import opened Classification
  import opened ReportSheets

  /** `empty_wells_count`: the number of rows whose identity is "empty well". */
  function EmptyWellsCount(rows: seq<Row>): (count: nat)
    ensures count <= |rows|
    ensures count == 0 <==> forall i :: 0 <= i < |rows| ==> rows[i].identity != EmptyWell
    ensures count == |rows| <==> forall i :: 0 <= i < |rows| ==> rows[i].identity == EmptyWell
  {
    if |rows| == 0 then 0
    else (if rows[0].identity == EmptyWell then 1 else 0) + EmptyWellsCount(rows[1..])
  }

  /** The rows flagged "not plastic", in order. */
  function NotPlasticRows(rows: seq<Row>): (kept: seq<Row>)
    ensures |kept| <= |rows|
    ensures forall y :: y in kept <==> y in rows && y.plasticOrNot == NotPlastic
  {
    if |rows| == 0 then []
    else
      assert forall y :: y in rows <==> y == rows[0] || y in rows[1..];
      (if rows[0].plasticOrNot == NotPlastic then [rows[0]] else []) + NotPlasticRows(rows[1..])
  }

  /** The filter keeps every "not plastic" row as often as it occurs and
      drops every other row, so its length counts repeated rows. */
  lemma {:induction false} NotPlasticRowsMultiplicity(rows: seq<Row>)
    ensures forall y :: multiset(NotPlasticRows(rows))[y]
                        == if y.plasticOrNot == NotPlastic then multiset(rows)[y] else 0
  {
    if |rows| > 0 {
      assert rows == [rows[0]] + rows[1..];
      NotPlasticRowsMultiplicity(rows[1..]);
    }
  }

  /** Filtering a concatenation filters each part. */
  lemma {:induction false} NotPlasticRowsAppend(a: seq<Row>, b: seq<Row>)
    ensures NotPlasticRows(a + b) == NotPlasticRows(a) + NotPlasticRows(b)
  {
    if |a| > 0 {
      assert (a + b)[1..] == a[1..] + b;
      NotPlasticRowsAppend(a[1..], b);
    } else {
      assert a + b == b;
    }
  }

  /** The number of Updated Summary rows whose `matches_checked` is `note`. */
  function NoteCount(updated: seq<UpdatedRow>, note: string): (count: nat)
    ensures count <= |updated|
  {
    if |updated| == 0 then 0
    else (if updated[0].note == Some(note) then 1 else 0) + NoteCount(updated[1..], note)
  }

  /** The count is 0 exactly when no row carries the note, and the number of
      rows exactly when every row does. */
  lemma {:induction false} NoteCountNoneOrAll(updated: seq<UpdatedRow>, note: string)
    ensures NoteCount(updated, note) == 0
            <==> forall i :: 0 <= i < |updated| ==> updated[i].note != Some(note)
    ensures NoteCount(updated, note) == |updated|
            <==> forall i :: 0 <= i < |updated| ==> updated[i].note == Some(note)
  {
    if |updated| > 0 {
      NoteCountNoneOrAll(updated[1..], note);
      assert forall i :: 1 <= i < |updated| ==> updated[i] == updated[1..][i - 1];
    }
  }

  function DigitChar(d: nat): (c: char)
    requires d < 10
    ensures '0' <= c <= '9' && c as int - '0' as int == d
  {
    "0123456789"[d]
  }

  predicate AllDigits(s: string) {
    forall i :: 0 <= i < |s| ==> '0' <= s[i] <= '9'
  }

  /** The number a string of decimal digits denotes. */
  function DecimalValue(s: string): nat
    requires AllDigits(s)
  {
    if |s| == 0 then 0
    else DecimalValue(s[..|s| - 1]) * 10 + (s[|s| - 1] as int - '0' as int)
  }

  /** `str(n)` for a count: its decimal digits, without leading zeros. */
  function NatToString(n: nat): (s: string)
    ensures |s| > 0 && AllDigits(s)
    ensures s[0] == '0' ==> s == "0"
    ensures DecimalValue(s) == n
  {
    if n < 10 then [DigitChar(n)]
    else
      var init := NatToString(n / 10);
      var s := init + [DigitChar(n % 10)];
      assert s[..|s| - 1] == init;
      s
  }

  /** What `notes_sheet` writes: nothing when no Summary row is "not plastic",
      otherwise the two statistics and the sentences in cells A3 and A4. */
  datatype NotesOutcome =
    | NoNonplasticMatches
    | Notes(emptyWells: nat, nonplastic: nat, totallyEmpty: nat, a3: string, a4: string)

  /** `notes_sheet` on the Summary and Updated Summary sheets. */
  function NotesSheet(summary: seq<Row>, updated: seq<UpdatedRow>): (out: NotesOutcome)
    ensures out.NoNonplasticMatches?
            <==> forall i :: 0 <= i < |summary| ==> summary[i].plasticOrNot != NotPlastic
    ensures out.Notes? ==>
              && 0 < out.nonplastic <= |summary|
              && out.emptyWells <= out.nonplastic
              && out.totallyEmpty <= |updated|
    ensures out.Notes? ==>
              && out.nonplastic == |NotPlasticRows(summary)|
              && out.emptyWells == EmptyWellsCount(NotPlasticRows(summary))
              && out.totallyEmpty == NoteCount(updated, AllEmptyWellsNote)
    ensures out.Notes? ==>
              && out.a3 == NatToString(out.emptyWells) + " out of " + NatToString(out.nonplastic)
                           + " nonplastic matches are empty wells."
              && out.a4 == NatToString(out.totallyEmpty) + " out of " + NatToString(out.emptyWells)
                           + " empty well matches have 5/5 top hits for empty wells."
  {
    var notPlastic := NotPlasticRows(summary);
    if |notPlastic| == 0 then
      assert forall i :: 0 <= i < |summary| ==> summary[i] !in notPlastic;
      NoNonplasticMatches
    else
      assert notPlastic[0] in notPlastic;
      var emptyWells := EmptyWellsCount(notPlastic);
      var totallyEmpty := NoteCount(updated, AllEmptyWellsNote);
      Notes(emptyWells, |notPlastic|, totallyEmpty,
            NatToString(emptyWells) + " out of " + NatToString(|notPlastic|)
              + " nonplastic matches are empty wells.",
            NatToString(totallyEmpty) + " out of " + NatToString(emptyWells)
              + " empty well matches have 5/5 top hits for empty wells.")
  }

  /** When every "all top matches empty wells" row is matched, position by
      position, by a "not plastic" empty-well Summary row, there are no more of
      the former than empty wells among the "not plastic" Summary rows. */
  lemma {:induction false} NoteCountBounded(summary: seq<Row>, updated: seq<UpdatedRow>)
    requires |summary| == |updated|
    requires forall k :: 0 <= k < |updated| && updated[k].note == Some(AllEmptyWellsNote) ==>
               summary[k].plasticOrNot == NotPlastic && summary[k].identity == EmptyWell
    ensures NoteCount(updated, AllEmptyWellsNote) <= EmptyWellsCount(NotPlasticRows(summary))
  {
    if |summary| > 0 {
      NoteCountBounded(summary[1..], updated[1..]);
      var head := if summary[0].plasticOrNot == NotPlastic then [summary[0]] else [];
      EmptyWellsAppend(head, NotPlasticRows(summary[1..]));
    }
  }

  /** Counting a note over a concatenation adds the counts of the parts. */
  lemma {:induction false} NoteCountAppend(a: seq<UpdatedRow>, b: seq<UpdatedRow>, note: string)
    ensures NoteCount(a + b, note) == NoteCount(a, note) + NoteCount(b, note)
  {
    if |a| > 0 {
      assert (a + b)[1..] == a[1..] + b;
      NoteCountAppend(a[1..], b, note);
    } else {
      assert a + b == b;
    }
  }

  lemma {:induction false} EmptyWellsAppend(a: seq<Row>, b: seq<Row>)
    ensures EmptyWellsCount(a + b) == EmptyWellsCount(a) + EmptyWellsCount(b)
  {
    if |a| > 0 {
      assert (a + b)[1..] == a[1..] + b;
      EmptyWellsAppend(a[1..], b);
    } else {
      assert a + b == b;
    }
  }

  /** For Summary and Updated Summary sheets of one run, the blocks whose top
      matches are all empty wells are no more than the "not plastic" empty-well
      best matches. With `NotesSheet`'s bounds this orders the statistics:
      all-empty-well blocks <= empty-well best matches <= "not plastic" best
      matches, and with no "not plastic" best match there is no all-empty-well
      block. */
  lemma NotesBoundsForOneRun(sorted: seq<seq<Row>>)
    requires AllNonEmpty(sorted)
    ensures NoteCount(SheetsOf(sorted).updated, AllEmptyWellsNote)
            <= EmptyWellsCount(NotPlasticRows(SheetsOf(sorted).summary))
  {
    var sheets := SheetsOf(sorted);
    forall k | 0 <= k < |sheets.updated| && sheets.updated[k].note == Some(AllEmptyWellsNote)
      ensures sheets.summary[k].plasticOrNot == NotPlastic && sheets.summary[k].identity == EmptyWell
    {
      ClassifyEmptyWellsIff(sorted[k]);
    }
    NoteCountBounded(sheets.summary, sheets.updated);
  }
}

=== FILE: partition.dfy ===
/**
 The stride partition of the match table: `for start_row in range(0, n, top_n)`
 takes the slice `[start_row : start_row + top_n]`, clamped at the end of the
 table. There is no check that the table length is a multiple of `top_n`, so
 the final block may be shorter than the others.
 */
module Partition {

  function Min(a: int, b: int): int {
    if a <= b then a else b
  }

  /** The blocks whose slices start at `start`, `start + n`, ... below `|s|`. */
  function ChunksFrom<T>(s: seq<T>, n: nat, start: nat): (blocks: seq<seq<T>>)
    requires n > 0
    ensures forall k :: 0 <= k < |blocks| ==> 0 < |blocks[k]| <= n
    ensures forall k :: 0 <= k < |blocks| - 1 ==> |blocks[k]| == n
    ensures start < |s| ==> (|blocks| - 1) * n < |s| - start <= |blocks| * n
    ensures start >= |s| ==> blocks == []
    decreases |s| - start
  {
    if start >= |s| then []
    else [s[start .. Min(start + n, |s|)]] + ChunksFrom(s, n, start + n)
  }

  /** The blocks of `s` at stride `n`. */
  function Chunks<T>(s: seq<T>, n: nat): (blocks: seq<seq<T>>)
    requires n > 0
    ensures forall k :: 0 <= k < |blocks| ==> 0 < |blocks[k]| <= n
    ensures forall k :: 0 <= k < |blocks| - 1 ==> |blocks[k]| == n
  {
    ChunksFrom(s, n, 0)
  }

  /** One step of the stride loop: the blocks from `start` are the slice at
      `start` followed by the blocks from `start + n`. */
  lemma ChunksFromStep<T>(s: seq<T>, n: nat, start: nat, done: seq<seq<T>>)
    requires n > 0 && start < |s|
    requires Chunks(s, n) == done + ChunksFrom(s, n, start)
    ensures 0 < |s[start .. Min(start + n, |s|)]|
    ensures Chunks(s, n) == (done + [s[start .. Min(start + n, |s|)]]) + ChunksFrom(s, n, start + n)
  {
    var slice := s[start .. Min(start + n, |s|)];
    assert ChunksFrom(s, n, start) == [slice] + ChunksFrom(s, n, start + n);
    assert (done + [slice]) + ChunksFrom(s, n, start + n) == done + ([slice] + ChunksFrom(s, n, start + n));
  }

  /** Concatenation of all blocks, in order. */
  function Flatten<T>(blocks: seq<seq<T>>): seq<T> {
    if |blocks| == 0 then []
    else Flatten(blocks[..|blocks| - 1]) + blocks[|blocks| - 1]
  }

  lemma {:induction false} FlattenAppend<T>(blocks: seq<seq<T>>, b: seq<T>)
    ensures Flatten(blocks + [b]) == Flatten(blocks) + b
  {
    assert (blocks + [b])[..|blocks|] == blocks;
  }

  lemma {:induction false} FlattenCons<T>(b: seq<T>, blocks: seq<seq<T>>)
    ensures Flatten([b] + blocks) == b + Flatten(blocks)
    decreases |blocks|
  {
    if |blocks| == 0 {
      assert [b] + blocks == [] + [b];
      FlattenAppend([], b);
    } else {
      var init := blocks[..|blocks| - 1];
      var last := blocks[|blocks| - 1];
      assert blocks == init + [last];
      assert [b] + blocks == ([b] + init) + [last];
      FlattenAppend([b] + init, last);
      FlattenCons(b, init);
      FlattenAppend(init, last);
    }
  }

  /** The slices from `start` on cover `s[start..]` exactly once, in order. */
  lemma {:induction false} FlattenChunksFrom<T>(s: seq<T>, n: nat, start: nat)
    requires n > 0
    ensures start <= |s| ==> Flatten(ChunksFrom(s, n, start)) == s[start..]
    decreases |s| - start
  {
    if start < |s| {
      var head := s[start .. Min(start + n, |s|)];
      FlattenChunksFrom(s, n, start + n);
      FlattenCons(head, ChunksFrom(s, n, start + n));
      if start + n < |s| {
        assert s[start..] == head + s[start + n..];
      } else {
        assert ChunksFrom(s, n, start + n) == [];
        assert s[start..] == head;
      }
    }
  }

  /** Stride slicing covers every row exactly once, in order: concatenating
      the blocks gives back the table. */
  lemma FlattenChunks<T>(s: seq<T>, n: nat)
    requires n > 0
    ensures Flatten(Chunks(s, n)) == s
  {
    FlattenChunksFrom(s, n, 0);
  }

  /** The number of blocks is the table length divided by `n`, rounded up. */
  lemma {:induction false} ChunkCount<T>(s: seq<T>, n: nat)
    requires n > 0
    ensures |Chunks(s, n)| == (|s| + n - 1) / n
  {
    var m := |Chunks(s, n)|;
    if |s| > 0 {
      assert (m - 1) * n < |s| <= m * n;
      CeilDiv(|s|, n, m);
    }
  }

  /** `m` is the rounded-up quotient of `a` by `n` when `(m - 1) * n < a <= m * n`. */
  lemma CeilDiv(a: int, n: int, m: int)
    requires n > 0 && (m - 1) * n < a <= m * n
    ensures (a + n - 1) / n == m
  {
    var b := a + n - 1;
    assert (m - 1) * n + n <= b < m * n + n;
    assert m * n <= b < (m + 1) * n;
    var q := b / n;
    var r := b % n;
    assert b == q * n + r && 0 <= r < n;
  }

  /** Position `j` of block `k` of the flattened blocks sits after all of the
      earlier blocks. */
  lemma {:induction false} FlattenIndex<T>(blocks: seq<seq<T>>, k: nat, j: nat)
    requires k < |blocks| && j < |blocks[k]|
    ensures |Flatten(blocks[..k])| + j < |Flatten(blocks)|
    ensures Flatten(blocks)[|Flatten(blocks[..k])| + j] == blocks[k][j]
    decreases |blocks|
  {
    var init := blocks[..|blocks| - 1];
    if k == |blocks| - 1 {
      assert blocks[..k] == init;
    } else {
      assert init[..k] == blocks[..k];
      FlattenIndex(init, k, j);
    }
  }

  /** Block `k` starts at offset `k * n` when all earlier blocks are full. */
  lemma {:induction false} FlattenPrefixLength<T>(blocks: seq<seq<T>>, n: nat, k: nat)
    requires k <= |blocks|
    requires forall i :: 0 <= i < k ==> |blocks[i]| == n
    ensures |Flatten(blocks[..k])| == k * n
  {
    if k > 0 {
      FlattenPrefixLength(blocks, n, k - 1);
      assert blocks[..k][..k - 1] == blocks[..k - 1];
    }
  }

  /** Blocks of equal sizes flatten to sequences of equal length. */
  lemma {:induction false} FlattenLengths<T, U>(a: seq<seq<T>>, b: seq<seq<U>>)
    requires |a| == |b|
    requires forall k :: 0 <= k < |a| ==> |a[k]| == |b[k]|
    ensures |Flatten(a)| == |Flatten(b)|
  {
    if |a| > 0 {
      FlattenLengths(a[..|a| - 1], b[..|b| - 1]);
    }
  }
}

=== FILE: paths.dfy ===
/**
 Path preparation for the R side: every backslash of a Windows path is
 doubled so that the path survives as a string literal in R.
 */
module Paths {
  import opened Wrappers

  const Backslash: char := '\\'

  /** Number of occurrences of `c` in `s`. */
  function Occurrences(s: string, c: char): (n: nat)
    ensures n <= |s|
  {
    if |s| == 0 then 0
    else (if s[0] == c then 1 else 0) + Occurrences(s[1..], c)
  }

  /** The path with each backslash replaced by two backslashes. */
  function ReformatPath(path: string): (r: string)
    ensures |r| == |path| + Occurrences(path, Backslash)
    ensures Backslash !in path ==> r == path
  {
    if |path| == 0 then ""
    else (if path[0] == Backslash then [Backslash, Backslash] else [path[0]]) + ReformatPath(path[1..])
  }

  /** Inverse of `ReformatPath`: collapses each pair of backslashes into one,
      and fails on a backslash that is not part of a pair. */
  function CollapseBackslashes(r: string): (path: Option<string>)
  {
    if |r| == 0 then Some("")
    else if r[0] != Backslash then
      match CollapseBackslashes(r[1..])
      case Some(rest) => Some([r[0]] + rest)
      case None => None
    else if |r| >= 2 && r[1] == Backslash then
      match CollapseBackslashes(r[2..])
      case Some(rest) => Some([Backslash] + rest)
      case None => None
    else None
  }

  /** Collapsing undoes reformatting: no path is lost or confused with another. */
  lemma {:induction false} CollapseReformat(path: string)
    ensures CollapseBackslashes(ReformatPath(path)) == Some(path)
  {
    if |path| > 0 {
      CollapseReformat(path[1..]);
      var tail := ReformatPath(path[1..]);
      if path[0] == Backslash {
        assert ReformatPath(path) == [Backslash, Backslash] + tail;
        assert ([Backslash, Backslash] + tail)[2..] == tail;
      } else {
        assert ReformatPath(path) == [path[0]] + tail;
        assert ([path[0]] + tail)[1..] == tail;
      }
      assert path == [path[0]] + path[1..];
    }
  }

  /** Every string that collapses to `path` is exactly the reformatted `path`:
      the reformatted output is the only well-formed doubling of `path`. */
  lemma {:induction false} ReformatCollapse(r: string, path: string)
    requires CollapseBackslashes(r) == Some(path)
    ensures ReformatPath(path) == r
  {
    if |r| > 0 {
      if r[0] != Backslash {
        var rest := CollapseBackslashes(r[1..]).value;
        ReformatCollapse(r[1..], rest);
        assert path == [r[0]] + rest;
        assert path[1..] == rest;
        assert r == [r[0]] + r[1..];
      } else {
        var rest := CollapseBackslashes(r[2..]).value;
        ReformatCollapse(r[2..], rest);
        assert path == [Backslash] + rest;
        assert path[1..] == rest;
        assert r == [Backslash, Backslash] + r[2..];
      }
    }
  }

  /** Reformatting works character by character: it distributes over
      concatenation, so each character of the input is rewritten on its own
      and the rewritten pieces stay in input order. */
  lemma {:induction false} ReformatPathAppend(a: string, b: string)
    ensures ReformatPath(a + b) == ReformatPath(a) + ReformatPath(b)
  {
    if |a| > 0 {
      ReformatPathAppend(a[1..], b);
      assert (a + b)[0] == a[0];
      assert (a + b)[1..] == a[1..] + b;
    } else {
      assert a + b == b;
    }
  }

  /** The rewrite of a single character: a backslash becomes two, anything else stays. */
  lemma ReformatPathChar(c: char)
    ensures ReformatPath([c]) == if c == Backslash then [Backslash, Backslash] else [c]
  {
    assert [c][1..] == [];
  }
}

=== FILE: report.dfy ===
/**
 Report assembly (`sort_export`): the match table is sorted by file name (the
 Info sheet), cut into blocks of `top_n` rows, each block is sorted best match
 first, and three sheets are built from the sorted blocks:
 - Summary: the first row of each block;
 - Updated Summary: the classification of each block;
 - Subsequent Matches: every row, with the file name replaced by "-" on all
   rows but the first of each block.
 */
module ReportSheets {
  import opened Rows
  import opened Sorting
  import opened Partition
  import opened Classification

  /** The three sheets derived from the sorted blocks. */
  datatype Sheets = Sheets(summary: seq<Row>, updated: seq<UpdatedRow>, subsequent: seq<Row>)

  /** Everything `sort_export` writes, apart from the Notes sheet. */
  datatype Report = Report(
    info: seq<Row>,
    columns: seq<string>,
    updatedColumns: seq<string>,
    sheets: Sheets)

  /** Why `sort_export` stops before writing its sheets:
      - `ZeroStride`: `range(0, n, 0)` raises;
      - `UpdatedWidthMismatch`: no Updated Summary row carries a note, so every
        row has six items while seven column names are given, and building the
        Updated Summary table raises. */
  datatype ReportError = ZeroStride | UpdatedWidthMismatch

  /** The Updated Summary rows are present but none carries a
      `matches_checked` value: the table has no seventh column. */
  predicate NoNoteInAnyRow(updated: seq<UpdatedRow>) {
    |updated| > 0 && forall k :: 0 <= k < |updated| ==> updated[k].note.None?
  }

  predicate AllNonEmpty(blocks: seq<seq<Row>>) {
    forall k :: 0 <= k < |blocks| ==> |blocks[k]| > 0
  }

  /** A block as it appears in Subsequent Matches: the first row as is, the
      file name of every later row replaced by "-". */
  function BlankFollowers(block: seq<Row>): (r: seq<Row>)
    ensures |r| == |block|
  {
    seq(|block|, j requires 0 <= j < |block| => if j == 0 then block[j] else block[j].(fileName := Dash))
  }

  /** `sorted` holds, block by block, a best-match-first ordering of `blocks`;
      the order among equal scores is left open. */
  ghost predicate BestFirst(blocks: seq<seq<Row>>, sorted: seq<seq<Row>>) {
    && |sorted| == |blocks|
    && forall k :: 0 <= k < |blocks| ==> IsSortOf(MatchValGe, sorted[k], blocks[k])
  }

  lemma BestFirstAppend(blocks: seq<seq<Row>>, sorted: seq<seq<Row>>, block: seq<Row>, sortedBlock: seq<Row>)
    requires BestFirst(blocks, sorted)
    requires IsSortOf(MatchValGe, sortedBlock, block)
    ensures BestFirst(blocks + [block], sorted + [sortedBlock])
  {
  }

  /** The blocks as they appear in Subsequent Matches. */
  function Blanked(sorted: seq<seq<Row>>): (r: seq<seq<Row>>)
    ensures |r| == |sorted|
    ensures forall k :: 0 <= k < |sorted| ==> r[k] == BlankFollowers(sorted[k])
  {
    seq(|sorted|, k requires 0 <= k < |sorted| => BlankFollowers(sorted[k]))
  }

  /** The sheets, described block by block rather than by the append loop. */
  function SheetsOf(sorted: seq<seq<Row>>): Sheets
    requires AllNonEmpty(sorted)
  {
    Sheets(
      seq(|sorted|, k requires 0 <= k < |sorted| => sorted[k][0]),
      seq(|sorted|, k requires 0 <= k < |sorted| && AllNonEmpty(sorted) => Classify(sorted[k])),
      Flatten(Blanked(sorted)))
  }

  /** Processing one more block appends one Summary row, one Updated Summary
      row and the block's Subsequent Matches rows. */
  lemma SheetsOfAppend(sorted: seq<seq<Row>>, block: seq<Row>)
    requires AllNonEmpty(sorted) && |block| > 0
    ensures AllNonEmpty(sorted + [block])
    ensures SheetsOf(sorted + [block]) == Sheets(
              SheetsOf(sorted).summary + [block[0]],
              SheetsOf(sorted).updated + [Classify(block)],
              SheetsOf(sorted).subsequent + BlankFollowers(block))
  {
    assert Blanked(sorted + [block]) == Blanked(sorted) + [BlankFollowers(block)];
    FlattenAppend(Blanked(sorted), BlankFollowers(block));
  }

  /** The inner loop of `sort_export` over one sorted block: every row goes to
      Subsequent Matches, with "-" as file name from the second row on, and the
      first row, untouched, goes to Summary. */
  method EmitBlock(block: seq<Row>, full: seq<Row>, summary: seq<Row>)
    returns (full': seq<Row>, summary': seq<Row>)
    requires |block| > 0
    ensures |full'| == |full| + |block| && full'[..|full|] == full
    ensures full'[|full|] == block[0]
    ensures forall j :: 1 <= j < |block| ==> full'[|full| + j] == block[j].(fileName := Dash)
    ensures summary' == summary + [block[0]]
    ensures full' == full + BlankFollowers(block)
  {
    full' := full;
    summary' := summary;
    var x := 0;
    while x < |block|
      invariant 0 <= x <= |block|
      invariant full' == full + BlankFollowers(block)[..x]
      invariant summary' == summary + (if x == 0 then [] else [block[0]])
    {
      var row := block[x];
      if x != 0 {
        row := row.(fileName := Dash);
      }
      full' := full' + [row];
      if x == 0 {
        summary' := summary' + [row];
      }
      x := x + 1;
    }
    assert BlankFollowers(block)[..x] == BlankFollowers(block);
  }

  /** The outer loop of `sort_export`: stride over the Info-sorted table,
      sort each block best match first, classify it and emit its rows. The
      sheets are those of some best-first ordering `sorted` of the blocks. */
  method BuildSheets(info: seq<Row>, n: nat) returns (sheets: Sheets, ghost sorted: seq<seq<Row>>)
    requires n > 0
    ensures BestFirst(Chunks(info, n), sorted)
    ensures AllNonEmpty(sorted)
    ensures sheets == SheetsOf(sorted)
    ensures |sheets.summary| == |sheets.updated| == |Chunks(info, n)|
  {
    var full: seq<Row> := [];
    var summary: seq<Row> := [];
    var updated: seq<UpdatedRow> := [];
    var start: nat := 0;
    ghost var done: seq<seq<Row>> := [];
    sorted := [];
    assert [] + ChunksFrom(info, n, 0) == Chunks(info, n);
    assert Chunks(info, n) == done + ChunksFrom(info, n, start);
    while start < |info|
      invariant Chunks(info, n) == done + ChunksFrom(info, n, start)
      invariant BestFirst(done, sorted)
      invariant AllNonEmpty(sorted)
      invariant Sheets(summary, updated, full) == SheetsOf(sorted)
      invariant |summary| == |updated| == |sorted| == |done|
      decreases |info| - start
    {
      var slice := info[start .. Min(start + n, |info|)];
      ChunksFromStep(info, n, start, done);
      ghost var doneNext := done + [slice];
      var startNext := start + n;
      assert Chunks(info, n) == doneNext + ChunksFrom(info, n, startNext);
      var subset := SortByMatchVal(slice);
      BestFirstAppend(done, sorted, slice, subset);
      SheetsOfAppend(sorted, subset);
      updated := SubsequentMatchesChecked(subset, updated);
      full, summary := EmitBlock(subset, full, summary);
      done := doneNext;
      sorted := sorted + [subset];
      start := startNext;
    }
    assert done == Chunks(info, n);
    sheets := Sheets(summary, updated, full);
  }
}

=== FILE: rows.dfy ===
/**
 The records the report works on: one candidate library match per row, as
 the external matcher delivers them, restricted to the six columns the report
 keeps, plus the column values and notes the classification compares against.
 */
module Rows {
  import opened Wrappers

  /** One candidate match for one input file. `matchVal` and `sn` stand in
      for the matcher's floating-point score and signal-to-noise ratio; only
      their order matters to the report. */
  datatype Row = Row(
    fileName: string,
    identity: string,
    materialClass: string,
    matchVal: int,
    sn: int,
    plasticOrNot: string)

  /** A row of the Updated Summary sheet: the chosen match and the value of its
      `matches_checked` column, `None` when no note was appended. */
  datatype UpdatedRow = UpdatedRow(row: Row, note: Option<string>)

  /** Values of the `plastic_or_not` column. */
  const Plastic: string := "plastic"
  const NotPlastic: string := "not plastic"

  /** The `spectrum_identity` of a well with no sample in it. */
  const EmptyWell: string := "empty well"

  /** Notes written to the `matches_checked` column. */
  const BlankNote: string := " "
  const AllEmptyWellsNote: string := "all top matches empty wells"
  const AllNonpolymerNote: string := "all top matches nonpolymer"

  /** Placeholder written over the file name of every non-first row of a block. */
  const Dash: string := "-"

  /** Column headers of the Summary and Subsequent Matches sheets. */
  const TruncatedColumns: seq<string> :=
    ["file_name.y", "spectrum_identity", "material_class", "match_val", "sn", "plastic_or_not"]

  /** Header of the extra Updated Summary column. */
  const MatchesCheckedColumn: string := "matches_checked"

  /** The `plastic_or_not` column of a table, in row order. */
  function PlasticColumn(table: seq<Row>): (flags: seq<string>)
    ensures |flags| == |table|
    ensures forall i :: 0 <= i < |table| ==> flags[i] == table[i].plasticOrNot
  {
    seq(|table|, i requires 0 <= i < |table| => table[i].plasticOrNot)
  }

  /** The `spectrum_identity` column of a table, in row order. */
  function IdentityColumn(table: seq<Row>): (ids: seq<string>)
    ensures |ids| == |table|
    ensures forall i :: 0 <= i < |table| ==> ids[i] == table[i].identity
  {
    seq(|table|, i requires 0 <= i < |table| => table[i].identity)
  }
}

=== FILE: sorting.dfy ===
/**
 Sorting as the report uses it: a result is acceptable when it is a
 permutation of the input that is ordered by the given relation. Nothing is
 promised about the order of equal keys, because the source sorts with the
 table library's default unstable algorithm; `InsertionSort` is one sort that
 meets the specification.
 */
module Sorting {
  import opened Rows

  /** `le` is total and transitive, so sorting by it is well defined. */
  ghost predicate TotalPreorder<T(!new)>(le: (T, T) -> bool) {
    && (forall a, b :: le(a, b) || le(b, a))
    && (forall a, b, c :: le(a, b) && le(b, c) ==> le(a, c))
  }

  /** Every element is `le` every later element. */
  predicate SortedBy<T>(le: (T, T) -> bool, s: seq<T>) {
    forall i, j :: 0 <= i < j < |s| ==> le(s[i], s[j])
  }

  /** `r` is an ordering of `s` by `le`: the same elements, with the same
      multiplicities, in `le` order. */
  ghost predicate IsSortOf<T>(le: (T, T) -> bool, r: seq<T>, s: seq<T>) {
    multiset(r) == multiset(s) && SortedBy(le, r)
  }

  /** Places `x` before the first element it is `le` to. */
  function Insert<T(!new)>(le: (T, T) -> bool, x: T, s: seq<T>): (r: seq<T>)
    requires TotalPreorder(le)
    requires SortedBy(le, s)
    ensures multiset(r) == multiset(s) + multiset{x}
    ensures SortedBy(le, r)
  {
    if |s| == 0 then [x]
    else if le(x, s[0]) then [x] + s
    else
      var rest := Insert(le, x, s[1..]);
      assert s == [s[0]] + s[1..];
      assert forall y :: y in rest ==> le(s[0], y) by {
        forall y | y in rest ensures le(s[0], y) {
          assert y in multiset(rest);
          if y != x {
            assert y in multiset(s[1..]);
            var k :| 0 <= k < |s[1..]| && s[1..][k] == y;
            assert s[k + 1] == y;
          }
        }
      }
      [s[0]] + rest
  }

  /** Sorts `s` by `le`. */
  function InsertionSort<T(!new)>(le: (T, T) -> bool, s: seq<T>): (r: seq<T>)
    requires TotalPreorder(le)
    ensures IsSortOf(le, r, s)
    ensures |r| == |s|
  {
    if |s| == 0 then []
    else
      assert s == [s[0]] + s[1..];
      var r := Insert(le, s[0], InsertionSort(le, s[1..]));
      assert |multiset(r)| == |multiset(s)|;
      r
  }

  /** In a non-empty sorted sequence the head is `le` every element of the
      sorted input, whatever order equal elements were placed in. */
  lemma {:induction false} HeadIsLeast<T>(le: (T, T) -> bool, r: seq<T>, s: seq<T>)
    requires IsSortOf(le, r, s)
    requires |s| > 0
    ensures |r| == |s| && r[0] in s
    ensures forall y :: y in s ==> le(r[0], y) || r[0] == y
  {
    assert |multiset(r)| == |multiset(s)|;
    assert r[0] in multiset(r);
    forall y | y in s ensures le(r[0], y) || r[0] == y {
      assert y in multiset(s);
      assert y in multiset(r);
      var k :| 0 <= k < |r| && r[k] == y;
      if k > 0 {
        assert le(r[0], r[k]);
      }
    }
  }

  /** Orders rows best match first. */
  predicate MatchValGe(a: Row, b: Row) {
    a.matchVal >= b.matchVal
  }

  /** Python's string order: lexicographic by code point, a proper prefix first. */
  predicate StrLe(a: string, b: string)
    decreases |a|
  {
    if |a| == 0 then true
    else if |b| == 0 then false
    else if a[0] != b[0] then a[0] < b[0]
    else StrLe(a[1..], b[1..])
  }

  /** Orders rows by file name, ascending. */
  predicate FileNameLe(a: Row, b: Row) {
    StrLe(a.fileName, b.fileName)
  }

  lemma {:induction false} StrLeTotal(a: string, b: string)
    ensures StrLe(a, b) || StrLe(b, a)
  {
    if |a| > 0 && |b| > 0 && a[0] == b[0] {
      StrLeTotal(a[1..], b[1..]);
    }
  }

  lemma {:induction false} StrLeTransitive(a: string, b: string, c: string)
    requires StrLe(a, b) && StrLe(b, c)
    ensures StrLe(a, c)
  {
    if |a| > 0 && |b| > 0 && |c| > 0 && a[0] == b[0] && b[0] == c[0] {
      StrLeTransitive(a[1..], b[1..], c[1..]);
    }
  }

  /** Both row orders the report sorts by are total preorders. */
  lemma RowOrdersArePreorders()
    ensures TotalPreorder(MatchValGe)
    ensures TotalPreorder(FileNameLe)
  {
    forall a: Row, b: Row ensures FileNameLe(a, b) || FileNameLe(b, a) {
      StrLeTotal(a.fileName, b.fileName);
    }
    forall a: Row, b: Row, c: Row | FileNameLe(a, b) && FileNameLe(b, c)
      ensures FileNameLe(a, c)
    {
      StrLeTransitive(a.fileName, b.fileName, c.fileName);
    }
  }

  /** The block sort: `sort_values(by="match_val", ascending=False)`. */
  function SortByMatchVal(block: seq<Row>): (r: seq<Row>)
    ensures IsSortOf(MatchValGe, r, block)
    ensures |r| == |block|
  {
    RowOrdersArePreorders();
    InsertionSort(MatchValGe, block)
  }

  /** The Info sort: `sort_values(by="file_name.y", ascending=True)`. */
  function SortByFileName(table: seq<Row>): (r: seq<Row>)
    ensures IsSortOf(FileNameLe, r, table)
  {
    RowOrdersArePreorders();
    InsertionSort(FileNameLe, table)
  }
}

=== FILE: wrappers.dfy ===
/** Failure-carrying datatypes used across the report model. */
module Wrappers {

  /** A value that may be absent. */
  datatype Option<+T> = None | Some(value: T)

  /** Either a computed value or the error that stopped the computation. */
  datatype Result<+R, +E> = Success(value: R) | Failure(error: E)
}
